=== FILE: README.md ===
# gcsim-mcp, modelled in Dafny

A model of the pure logic of `gcsim-mcp`, a small Model Context Protocol
server that exposes one tool, `run_gcsim`. The tool writes a gcsim
configuration text to a temporary file and runs the pre-built gcsim
executable on it. The model has four modules:

- `Results` (`results.dfy`): `Option` and `Result`. A failed `Result` carries the message of
  the JavaScript `Error` the source throws.
- `Config` (`config.dfy`, from `src/config.ts`): the command-line scan for
  `--gcsim-path <value>`, and the global config holder. The holder is an explicit `Holder`
  value (`Uninitialised` or `Initialised(config)`) that `InitConfig` returns and `GetConfig` reads.
- `Gcsim` (`gcsim.dfy`, from `src/tools/gcsim.ts`): `executeGcsimCommand`. The filesystem
  is a value: a set of directories plus a map from paths to contents. The temporary directory
  name is a parameter. The outcome of mkdir, writeFile, exec and rm comes from an
  `Environment` parameter. A call yields a `Run`: the steps attempted, each with whether it
  succeeded and the filesystem after it, and how the call ended (`Returned` or `Threw`).
- `Server` (`server.dfy`, from `src/index.ts`): the handlers for `tools/list`,
  `tools/call`, `resources/list` and `prompts/list`, written as pure functions.
  The tool-call handler takes the runner as a parameter. `String(...)` is modelled
  over a small JavaScript value type.

Behaviour of the code that is easy to miss, and that the model keeps:

- A mkdir or writeFile failure is not turned into a `Simulation failed` result.
  Both calls run before the `try`, so the error escapes as an exception.
  When writeFile fails, the temporary directory has already been created and is not removed.
- The `--gcsim-path` scan is not a plain "flag followed by value" lookup: the last value the
  scan reaches wins, and an empty final value is an error. A flag in last position has no
  value and is ignored. A token consumed as a value is never read as a flag.
- `String(arguments.config)` runs before the tool does anything. A `config` object with an own
  `toString` key makes it throw, so the call fails as a protocol error and nothing is written.

## Model

| member | source | states |
|---|---|---|
| `Config.UserArgs` | src/config.ts:15 | the user arguments are `argv` from index 2 on, in order, and empty when `argv` has two or fewer entries |
| `Config.Scan` | src/config.ts:17-27 | the scanned value is either the starting value or one of the scanned tokens |
| `Config.ScanIsLastCapture` | src/config.ts:20-27 | the scan returns the last value captured by a `--gcsim-path` pair, or its starting value if no pair was captured |
| `Config.ParseArgs` | src/config.ts:14-35 | succeeds exactly when some value was captured and the last captured value is non-empty; the path is then that value, non-empty and one of `argv[2..]`; otherwise fails with the "option is required" message |
| `Config.ParseArgsByLoop` | src/config.ts:15-34 | the source's `for` loop, which bumps the index past a consumed value, computes the same result as `ParseArgs` |
| `Config.LauncherArgsIgnored` | src/config.ts:15 | two argument lists that agree from index 2 on parse identically, whatever `argv[0]` and `argv[1]` are |
| `Config.NoUserArgsFails` | src/config.ts:15-32 | with two or fewer argv entries the option is missing |
| `Config.ScanSplit` | src/config.ts:20-27 | at any index the loop reaches, scanning the whole list equals scanning the suffix starting from the prefix's result |
| `Config.ScanWithoutPairKeeps` | src/config.ts:20-27 | with no flag before the final token, nothing is captured |
| `Config.LastPairWins` | src/config.ts:20-26 | when the scan reaches a flag that has a value and no later flag has a value, that value is the result |
| `Config.ParseArgsLastPairWins` | src/config.ts:20-34 | the same for `parseArgs`: the last pair's value is returned, or the call fails when that value is empty |
| `Config.TrailingFlagIgnored` | src/config.ts:23 | a flag reached as the final token has no value and does not change the result |
| `Config.ConsumedValueNotReexamined` | src/config.ts:23-25 | `--gcsim-path --gcsim-path` yields the path `--gcsim-path` |
| `Config.InsertedTokenIgnored` | src/config.ts:20-27 | inserting a non-flag token where the scan examines a token (or at the start) does not change the result |
| `Config.AppendedTokenIgnored` | src/config.ts:20-27 | appending a non-flag token at the end, where the scan examines it on its own, does not change the result |
| `Config.NoFlagFails` | src/config.ts:29-32 | without the flag among the user arguments, `parseArgs` fails |
| `Config.InitConfig` | src/config.ts:41-44 | returns exactly what `parseArgs` returns; a successful parse is stored, and its path is non-empty; a failing parse leaves the holder as it was |
| `Config.GetConfig` | src/config.ts:51-56 | returns the stored config exactly when one is stored, and the "not initialized" error otherwise |
| `Config.GetConfigAfterInits` | src/config.ts:41-55 | after any sequence of `initConfig` calls, `getConfig` returns the config of the last one that succeeded, or fails if none succeeded |
| `Config.StoredPathNonEmpty` | src/config.ts:29-44 | every config the holder can reach from process start has a non-empty path |
| `Gcsim.Join` | src/tools/gcsim.ts:21 | the joined path is the directory, a `/` and the name, each verbatim |
| `Gcsim.ConfigPath` | src/tools/gcsim.ts:21 | the config file path is `config.txt` strictly inside the temporary directory |
| `Gcsim.ConfigPathUnderTempDir` | src/tools/gcsim.ts:17-21 | the config file path lies strictly inside the temporary directory |
| `Gcsim.MakeDirIn` | src/tools/gcsim.ts:18 | mkdir adds exactly the directory and leaves files and other directories alone |
| `Gcsim.RemoveTreeIn` | src/tools/gcsim.ts:63 | a successful recursive removal deletes exactly the paths at or below the directory and keeps every other file's contents |
| `Gcsim.BuildCommand` | src/tools/gcsim.ts:29 | the command is `"`, the executable path, `" -c "`, the config path and `" -substatOptimFull`, with both paths verbatim |
| `Gcsim.CommandDeterminesPaths` | src/tools/gcsim.ts:29 | if the executable path has no double quote, the command determines both paths |
| `Gcsim.QuotedPathMakesCommandAmbiguous` | src/tools/gcsim.ts:29 | quotes are not escaped: two different path pairs give the same command |
| `Gcsim.FailureText` | src/tools/gcsim.ts:51-57 | the failure text is `Simulation failed: `, then the message, a newline and the stderr text; missing stderr counts as empty |
| `Gcsim.FailureTextDeterminesParts` | src/tools/gcsim.ts:57 | for a single-line message, the failure text determines the message and the stderr text |
| `Gcsim.TextResult` | src/tools/gcsim.ts:41-46 | a result has exactly one content block, of type `text`, holding the given text |
| `Gcsim.TryResult` | src/tools/gcsim.ts:24-59 | one text block: stdout on exec success, the failure text for an exec rejection, and the failure text with empty stderr for a `getConfig` error |
| `Gcsim.ExecuteGcsimCommand` | src/tools/gcsim.ts:15-68 | mkdir comes first and writeFile second, writing the text verbatim to `<tempDir>/config.txt`; a failure of either escapes as an exception; the filesystem is unchanged after a mkdir failure, and after a writeFile failure it keeps the new directory, which is never removed; a successful write adds only the config file; once both succeed the call returns the `try` result, the directory removal is the last step, and a failed removal leaves the directory and the config file behind |
| `Gcsim.CleanupAttemptedExactlyWhenTryEntered` | src/tools/gcsim.ts:17-67 | removal of the temporary directory is attempted exactly when mkdir and writeFile both succeeded, and it is then the last step |
| `Gcsim.CommandRunsWithWrittenFile` | src/tools/gcsim.ts:21-34 | the command runs exactly when the `try` is entered with an initialised config; it names the configured executable and the config file, carries the 60000 ms timeout, and the file holds the text verbatim while it runs |
| `Gcsim.TempDirGoneAfterCleanup` | src/tools/gcsim.ts:60-67 | after a successful cleanup nothing at or below the temporary directory remains, and every other path is as it was before the call |
| `Gcsim.SiblingRunUntouched` | src/tools/gcsim.ts:60-67 | removing one run's temporary directory keeps the config file of a run whose directory neither contains nor lies inside it, with its contents unchanged |
| `Gcsim.RemovalErrorInvisible` | src/tools/gcsim.ts:62-66 | the call ends the same way whether or not the removal fails |
| `Gcsim.NothingEscapesTry` | src/tools/gcsim.ts:24-59 | once the file is written the call returns, and the result has exactly one `text` block |
| `Gcsim.SuccessReturnsStdout` | src/tools/gcsim.ts:34-46 | on exec success the single block's text is stdout, and changing stderr does not change the result |
| `Gcsim.UninitialisedConfigReported` | src/tools/gcsim.ts:24-58 | before any successful `initConfig` the call returns the "not initialized" message followed by a newline |
| `Gcsim.ExecFailureReported` | src/tools/gcsim.ts:47-58 | an exec rejection returns `Simulation failed: <message>\n<stderr or empty>` |
| `Server.ListTools` | src/index.ts:35-65 | exactly one tool, `run_gcsim`, whose object schema declares only `config`, of type string, and requires only `config` |
| `Server.ListResources` | src/index.ts:85-89 | the resource listing is empty |
| `Server.ListPrompts` | src/index.ts:94-98 | the prompt listing is empty |
| `Server.ListedSchemaWellFormed` | src/index.ts:41-61 | every property a listed schema requires is one it declares |
| `Server.NatToDecimal` | src/index.ts:75 | a number is rendered as a non-empty string of decimal digits with no leading zero |
| `Server.DecimalRoundTrip` | src/index.ts:75 | the decimal rendering denotes the number it was made from |
| `Server.ToJsString` | src/index.ts:75 | `String(...)` throws the "Cannot convert object to primitive value" error exactly for an object with an own `toString` key; a string is returned unchanged, `undefined` and `null` become the texts `undefined` and `null`, a boolean `true` or `false`, and any other object `[object Object]` |
| `Server.ConfigArgument` | src/index.ts:75 | `arguments?.config` is the `config` entry when there are arguments holding one, and `undefined` otherwise |
| `Server.CoercionOfStringsAndUndefined` | src/index.ts:75 | a string argument passes through unchanged; a missing one becomes the text `undefined`, the same text a caller could send |
| `Server.IntCoercionDecimal` | src/index.ts:75 | an integer argument is rendered as the decimal digits of its magnitude, preceded by a minus sign exactly when it is negative |
| `Server.IntCoercionInjective` | src/index.ts:75 | different integers are coerced to different texts |
| `Server.RouteCall` | src/index.ts:71-75 | an unknown name is rejected with "Unknown tool" before the argument is looked at; for `run_gcsim` the call is rejected, with the conversion error, exactly when `config` is an object with an own `toString` key, and otherwise forwarded with exactly the text `String(config)` produces |
| `Server.CallTool` | src/index.ts:70-80 | an unknown name yields the "Unknown tool" error and any rejection its own error; otherwise a returned runner result is the response unchanged, and an exception from the runner becomes a protocol error with its message |
| `Server.UnknownToolNeverRunsRunner` | src/index.ts:71-73 | for an unknown name the response does not depend on the runner, so the runner is never reached |
| `Server.UnconvertibleConfigNeverRunsRunner` | src/index.ts:75-79 | a `config` object with an own `toString` key ends the call with the conversion error whatever the runner would do, so the runner is never reached |
| `Server.CallableExactlyListed` | src/index.ts:35-73 | a call escapes the "Unknown tool" rejection exactly when its name is the name of a listed tool |
| `Server.CallRunsParsedExecutable` | src/index.ts:75-79 | after a successful `initConfig`, a `run_gcsim` call whose argument converts forwards the converted text to `executeGcsimCommand` (wired in as `GcsimRunner`), which writes it, runs the parsed executable on it, and the call responds with the `try` result |
| `Server.MissingConfigWritesUndefined` | src/index.ts:75-79 | a call without `config`, whether `arguments` is absent or has no `config` key, is forwarded and writes the text `undefined` to the config file |

## Left out

- MCP SDK server construction, the stdio transport, `server.connect` and `process.exit` in
  `main` (src/index.ts:17-29, 104-115): external library calls and process lifecycle.
  `CallRunsParsedExecutable` covers the one effect of `main` on the model, the `initConfig` call.
- Real child-process execution and the timeout mechanism: the outcome of `exec` is the
  `Environment.exec` parameter. A timeout is one kind of `ExecFailed`. The model records the
  60000 ms timeout value on the `RunCommand` step.
- Temporary directory naming with `os.tmpdir()` and `Date.now()`: it depends on the clock and
  the host, so the directory name is a parameter.
- `path.join` normalisation and Windows separators: `Join` is `dir + "/" + name`.
  The tracked filesystem does not record the parent directories that a recursive mkdir creates.
- A writeFile that fails part-way: the model leaves the filesystem unchanged on a write error.
- Whatever the gcsim process itself does to the filesystem: the `RunCommand` step leaves it unchanged.
- Console logging, including the stderr warning: it has no effect on results.
- Concurrent invocations: nothing in the code coordinates them. The model covers only the
  filesystem side, in `SiblingRunUntouched`: one run's cleanup leaves another run's config file alone.
- Distinct temporary directories: the model takes the directory name as a parameter and its
  lemmas about two runs assume different, non-nested names. The code names the directory
  `gcsim-${Date.now()}`, so two calls within the same millisecond share it, and the first cleanup
  can delete the second run's config file.
- Server.ToJsString: covers `undefined`, `null`, booleans, strings, integers within
  ±(2^53 - 1) and JSON objects, known by their own keys. Arrays, non-integer numbers and larger
  integers are not covered; JavaScript rounds the larger ones to the nearest double and prints
  1e21 and beyond in exponent notation. `-0` is not a separate value; JavaScript prints it as `0`.
- Text encoding: a text is a sequence of Unicode characters and writeFile is taken to store it as
  given. The code writes UTF-8, and a JavaScript string holding a lone UTF-16 surrogate has no
  counterpart here; Node writes U+FFFD for it, so for such input "verbatim" is not byte-for-byte.
- Thrown values that are not an `Error` instance (`String(error)`) and a non-string
  `stderr` value are reduced to a message string and an optional stderr string.

=== FILE: config.dfy ===
/** The argument scanner and the process-wide configuration holder.

    `ParseArgs` drops the launcher's two leading entries (the Node executable
    and the script path), then scans the rest for `--gcsim-path <value>`
    pairs; the value of the last pair the scan reaches wins, a flag in last
    position has no value and is ignored, and an empty final value is an
    error. The global `config` variable is modelled as an explicit `Holder`
    value that `InitConfig` produces and `GetConfig` reads.
 */
module Config {
  import opened Results

  /** The one recognised command-line flag. */
  const GcsimPathFlag: string := "--gcsim-path"

  /** Message of the error thrown when no non-empty path was captured. */
  const MissingPathMessage: string :=
    "--gcsim-path option is required. Please specify the path to gcsim executable."

  /** Message of the error thrown by `GetConfig` before a successful `InitConfig`. */
  const UninitialisedMessage: string :=
    "Configuration has not been initialized. Call initConfig first."

  datatype ServerConfig = ServerConfig(gcsimPath: string)

  /** `argv.slice(2)`: everything after the executable and script paths
      (empty when there are no more than two entries). */
  function UserArgs(argv: seq<string>): (args: seq<string>)
    ensures |args| == if |argv| <= 2 then 0 else |argv| - 2
    ensures forall i :: 0 <= i < |args| ==> args[i] == argv[i + 2]
  {
    if |argv| <= 2 then [] else argv[2..]
  }

  /** The value of `gcsimPath` once the scan loop has examined all of `args`,
      starting from `current`: a flag with a following token captures that
      token and the scan resumes after it; every other token is skipped. */
  function Scan(args: seq<string>, current: string): (r: string)
    ensures r == current || r in args
    decreases |args|
  {
    if |args| == 0 then current
    else if args[0] == GcsimPathFlag && 1 < |args| then Scan(args[2..], args[1])
    else Scan(args[1..], current)
  }

  /** How many tokens the loop consumes when it examines `args[0]`. */
  function Step(args: seq<string>): nat
    requires |args| > 0
  {
    if args[0] == GcsimPathFlag && 1 < |args| then 2 else 1
  }

  /** `k` is a value the loop index takes while scanning `args`: the scan
      examines the token at `k` as a potential flag (or stops there when
      `k == |args|`). */
  predicate IsScanPoint(args: seq<string>, k: nat)
    decreases |args|
  {
    k == 0 || (|args| > 0 && k >= Step(args) && IsScanPoint(args[Step(args)..], k - Step(args)))
  }

  /** The values captured by `--gcsim-path`, in the order the scan reaches them. */
  function Captures(args: seq<string>): seq<string>
    decreases |args|
  {
    if |args| == 0 then []
    else if args[0] == GcsimPathFlag && 1 < |args| then [args[1]] + Captures(args[2..])
    else Captures(args[1..])
  }

  function Last(s: seq<string>): string
    requires |s| > 0
  {
    s[|s| - 1]
  }

  /** The scan's result is the last captured value, or its starting value
      when nothing was captured. */
  lemma {:induction false} ScanIsLastCapture(args: seq<string>, current: string)
    ensures Scan(args, current) == if |Captures(args)| == 0 then current else Last(Captures(args))
    decreases |args|
  {
    if |args| == 0 {
    } else if args[0] == GcsimPathFlag && 1 < |args| {
      ScanIsLastCapture(args[2..], args[1]);
    } else {
      ScanIsLastCapture(args[1..], current);
    }
  }

  /** `parseArgs`: the last captured value, when there is one and it is not
      empty; the "option is required" error otherwise. */
  function ParseArgs(argv: seq<string>): (r: Result<ServerConfig>)
    ensures r.Ok? <==> |Captures(UserArgs(argv))| > 0 && Last(Captures(UserArgs(argv))) != ""
    ensures r.Ok? ==> r.value.gcsimPath == Last(Captures(UserArgs(argv)))
    ensures r.Ok? ==> r.value.gcsimPath != "" && r.value.gcsimPath in UserArgs(argv)
    ensures r.Err? ==> r.message == MissingPathMessage
  {
    ScanIsLastCapture(UserArgs(argv), "");
    var gcsimPath := Scan(UserArgs(argv), "");
    if gcsimPath == "" then Err(MissingPathMessage) else Ok(ServerConfig(gcsimPath))
  }

  /** The `for` loop of `parseArgs` as written, with the index bumped past a
      consumed value, computes the same result as the recursive scan. */
  method ParseArgsByLoop(argv: seq<string>) returns (r: Result<ServerConfig>)
    ensures r == ParseArgs(argv)
  {
    var args := UserArgs(argv);
    var gcsimPath := "";
    var i := 0;
    while i < |args|
      invariant 0 <= i <= |args|
      invariant Scan(args[i..], gcsimPath) == Scan(args, "")
    {
      if args[i] == GcsimPathFlag && i + 1 < |args| {
        assert args[i..][2..] == args[i + 2..];
        gcsimPath := args[i + 1];
        i := i + 1;
      } else {
        assert args[i..][1..] == args[i + 1..];
      }
      i := i + 1;
    }
    if gcsimPath == "" {
      r := Err(MissingPathMessage);
    } else {
      r := Ok(ServerConfig(gcsimPath));
    }
  }

  // ---------------------------------------------------------------------
  // Properties of the scan

  /** Only `argv[2..]` matters: the executable and script paths never
      affect the result. */
  lemma LauncherArgsIgnored(argv1: seq<string>, argv2: seq<string>)
    requires |argv1| >= 2 && |argv2| >= 2
    requires argv1[2..] == argv2[2..]
    ensures ParseArgs(argv1) == ParseArgs(argv2)
  {
  }

  /** With no user arguments at all the option is missing. */
  lemma NoUserArgsFails(argv: seq<string>)
    requires |argv| <= 2
    ensures ParseArgs(argv) == Err(MissingPathMessage)
  {
  }

  /** The value held after the loop examines `args[0]`. */
  function Advance(args: seq<string>, current: string): string
    requires |args| > 0
  {
    if args[0] == GcsimPathFlag && 1 < |args| then args[1] else current
  }

  /** Cutting the list after the first step leaves that step unchanged. */
  lemma PrefixFirstStep(args: seq<string>, k: nat, current: string)
    requires |args| > 0 && Step(args) <= k <= |args|
    ensures Scan(args[..k], current) == Scan(args[Step(args)..][..k - Step(args)], Advance(args, current))
  {
    var prefix := args[..k];
    var s := Step(args);
    assert prefix[0] == args[0];
    assert s == 2 ==> prefix[1] == args[1];
    assert prefix[s..] == args[s..][..k - s];
  }

  /** Scanning can be cut at any point the loop index reaches: the suffix is
      scanned starting from what the prefix produced. */
  lemma {:induction false} ScanSplit(args: seq<string>, k: nat, current: string)
    requires IsScanPoint(args, k)
    ensures k <= |args|
    ensures Scan(args, current) == Scan(args[k..], Scan(args[..k], current))
    decreases |args|
  {
    if k == 0 {
      assert args[..0] == [];
      assert args[0..] == args;
    } else {
      var s := Step(args);
      var rest := args[s..];
      ScanSplit(rest, k - s, Advance(args, current));
      assert rest[k - s..] == args[k..];
      PrefixFirstStep(args, k, current);
    }
  }

  /** Without a flag that has a following token, nothing is captured and the
      starting value is kept. */
  lemma {:induction false} ScanWithoutPairKeeps(args: seq<string>, current: string)
    requires forall k :: 0 <= k < |args| - 1 ==> args[k] != GcsimPathFlag
    ensures Scan(args, current) == current
    decreases |args|
  {
    if |args| > 0 {
      assert forall k :: 0 <= k < |args[1..]| - 1 ==> args[1..][k] == args[k + 1];
      ScanWithoutPairKeeps(args[1..], current);
    }
  }

  /** Last pair wins: when the scan reaches a flag at `j` that has a value,
      and no later flag has a value, the result is that value. */
  lemma LastPairWins(args: seq<string>, j: nat, current: string)
    requires IsScanPoint(args, j)
    requires j + 1 < |args| && args[j] == GcsimPathFlag
    requires forall k :: j + 2 <= k < |args| - 1 ==> args[k] != GcsimPathFlag
    ensures Scan(args, current) == args[j + 1]
  {
    ScanSplit(args, j, current);
    var tail := args[j..];
    assert tail[0] == GcsimPathFlag && tail[1] == args[j + 1];
    assert tail[2..] == args[j + 2..];
    ScanWithoutPairKeeps(args[j + 2..], args[j + 1]);
  }

  /** The same, stated on `parseArgs` itself. */
  lemma ParseArgsLastPairWins(argv: seq<string>, j: nat)
    requires |argv| > 2 && IsScanPoint(argv[2..], j)
    requires j + 1 < |argv[2..]| && argv[2..][j] == GcsimPathFlag
    requires forall k :: j + 2 <= k < |argv[2..]| - 1 ==> argv[2..][k] != GcsimPathFlag
    ensures argv[2..][j + 1] != "" ==> ParseArgs(argv) == Ok(ServerConfig(argv[2..][j + 1]))
    ensures argv[2..][j + 1] == "" ==> ParseArgs(argv) == Err(MissingPathMessage)
  {
    LastPairWins(argv[2..], j, "");
  }

  /** A flag in final position, reached by the scan as a token of its own,
      has no value and is ignored. */
  lemma TrailingFlagIgnored(args: seq<string>, current: string)
    requires IsScanPoint(args + [GcsimPathFlag], |args|)
    ensures Scan(args + [GcsimPathFlag], current) == Scan(args, current)
  {
    var longer := args + [GcsimPathFlag];
    ScanSplit(longer, |args|, current);
    assert longer[..|args|] == args;
    assert longer[|args|..] == [GcsimPathFlag];
  }

  /** A consumed value is never re-examined as a flag:
      `--gcsim-path --gcsim-path` yields the path `--gcsim-path`. */
  lemma ConsumedValueNotReexamined(node: string, script: string)
    ensures ParseArgs([node, script, GcsimPathFlag, GcsimPathFlag]) == Ok(ServerConfig(GcsimPathFlag))
  {
  }

  /** Inserting a non-flag token after the first step leaves that step
      unchanged. */
  lemma InsertAfterFirstStep(args: seq<string>, k: nat, t: string, current: string)
    requires |args| > 0 && Step(args) <= k < |args|
    ensures Scan(args[..k] + [t] + args[k..], current) ==
            Scan(args[Step(args)..][..k - Step(args)] + [t] + args[Step(args)..][k - Step(args)..], Advance(args, current))
  {
    var longer := args[..k] + [t] + args[k..];
    var s := Step(args);
    assert longer[0] == args[0];
    assert s == 2 ==> longer[1] == args[1];
    assert longer[s..] == args[s..][..k - s] + [t] + args[s..][k - s..];
  }

  /** Inserting a token that is not the flag, at a point where the scan
      examines a token (or at the very start), does not change the result. */
  lemma {:induction false} InsertedTokenIgnored(args: seq<string>, k: nat, t: string, current: string)
    requires IsScanPoint(args, k) && (k == 0 || k < |args|)
    requires t != GcsimPathFlag
    ensures k <= |args|
    ensures Scan(args[..k] + [t] + args[k..], current) == Scan(args, current)
    decreases |args|
  {
    if k == 0 {
      var longer := args[..0] + [t] + args[0..];
      assert longer == [t] + args;
      assert longer[1..] == args;
    } else {
      var s := Step(args);
      InsertedTokenIgnored(args[s..], k - s, t, Advance(args, current));
      InsertAfterFirstStep(args, k, t, current);
    }
  }

  /** Appending a token that is not the flag, where the scan reaches the end
      and examines it on its own, does not change the result either. */
  lemma AppendedTokenIgnored(args: seq<string>, t: string, current: string)
    requires t != GcsimPathFlag && IsScanPoint(args + [t], |args|)
    ensures Scan(args + [t], current) == Scan(args, current)
  {
    var longer := args + [t];
    ScanSplit(longer, |args|, current);
    assert longer[..|args|] == args;
    assert longer[|args|..] == [t];
  }

  /** Without the flag anywhere among the user arguments, `parseArgs` fails. */
  lemma NoFlagFails(argv: seq<string>)
    requires GcsimPathFlag !in UserArgs(argv)
    ensures ParseArgs(argv) == Err(MissingPathMessage)
  {
    var args := UserArgs(argv);
    assert forall k :: 0 <= k < |args| - 1 ==> args[k] in args;
    ScanWithoutPairKeeps(args, "");
  }

  // ---------------------------------------------------------------------
  // The global configuration holder

  /** The module-level `config` variable: `null` until the first successful
      `initConfig`. */
  datatype Holder = Uninitialised | Initialised(config: ServerConfig)

  datatype InitOutcome = InitOutcome(holder: Holder, result: Result<ServerConfig>)

  /** `initConfig`: a successful parse replaces the stored config and is
      returned; a failing parse throws before the assignment, so the holder
      is left as it was. */
  function InitConfig(h: Holder, argv: seq<string>): (r: InitOutcome)
    ensures r.result == ParseArgs(argv)
    ensures r.result.Ok? ==> r.holder == Initialised(r.result.value) && r.result.value.gcsimPath != ""
    ensures r.result.Err? ==> r.holder == h && r.result.message == MissingPathMessage
  {
    match ParseArgs(argv)
    case Ok(c) => InitOutcome(Initialised(c), Ok(c))
    case Err(m) => InitOutcome(h, Err(m))
  }

  /** `getConfig`: the stored config, or the "not initialized" error. */
  function GetConfig(h: Holder): (r: Result<ServerConfig>)
    ensures r.Ok? <==> h.Initialised?
    ensures r.Ok? ==> r.value == h.config
    ensures r.Err? ==> r.message == UninitialisedMessage
  {
    match h
    case Uninitialised => Err(UninitialisedMessage)
    case Initialised(c) => Ok(c)
  }

  /** The holder after `initConfig` has been called on each argument list in
      turn, errors included (each failing call leaves the holder alone). */
  function InitAll(h: Holder, calls: seq<seq<string>>): Holder
    decreases |calls|
  {
    if |calls| == 0 then h else InitAll(InitConfig(h, calls[0]).holder, calls[1..])
  }

  /** The config parsed by the last call whose parse succeeded, if any. */
  function LastSuccessfulParse(calls: seq<seq<string>>): Option<ServerConfig>
    decreases |calls|
  {
    if |calls| == 0 then None
    else match ParseArgs(calls[|calls| - 1])
      case Ok(c) => Some(c)
      case Err(_) => LastSuccessfulParse(calls[..|calls| - 1])
  }

  lemma {:induction false} InitAllLast(h: Holder, calls: seq<seq<string>>)
    requires |calls| > 0
    ensures InitAll(h, calls) == InitConfig(InitAll(h, calls[..|calls| - 1]), calls[|calls| - 1]).holder
    decreases |calls|
  {
    if |calls| > 1 {
      var h1 := InitConfig(h, calls[0]).holder;
      InitAllLast(h1, calls[1..]);
      assert calls[1..][..|calls[1..]| - 1] == calls[..|calls| - 1][1..];
    } else {
      assert calls[..0] == [];
    }
  }

  /** `getConfig` fails until some `initConfig` succeeds, and afterwards
      returns exactly the config of the last successful one. */
  lemma {:induction false} GetConfigAfterInits(calls: seq<seq<string>>)
    ensures GetConfig(InitAll(Uninitialised, calls)) ==
      match LastSuccessfulParse(calls)
      case None => Err(UninitialisedMessage)
      case Some(c) => Ok(c)
    decreases |calls|
  {
    if |calls| > 0 {
      InitAllLast(Uninitialised, calls);
      GetConfigAfterInits(calls[..|calls| - 1]);
    }
  }

  /** Every config the holder can reach from process start has a non-empty
      executable path. */
  lemma {:induction false} StoredPathNonEmpty(calls: seq<seq<string>>)
    ensures InitAll(Uninitialised, calls).Initialised? ==> InitAll(Uninitialised, calls).config.gcsimPath != ""
    decreases |calls|
  {
    if |calls| > 0 {
      InitAllLast(Uninitialised, calls);
      StoredPathNonEmpty(calls[..|calls| - 1]);
    }
  }
}

=== FILE: gcsim.dfy ===
/** The simulation runner, `executeGcsimCommand`.

    The filesystem, the child process and the clock are abstracted: the
    filesystem is a value (`FileSystem`), the temporary directory name is a
    parameter, and the outcome of each I/O action (mkdir, writeFile, exec,
    rm) comes from an `Environment` the caller supplies. A run is recorded as
    the sequence of actions attempted, each with whether it succeeded and the
    filesystem after it, plus how the call completed.
 */
module Gcsim {
  import opened Results
  import opened Config

  /** Name of the file the configuration text is written to. */
  const ConfigFileName: string := "config.txt"

  /** The child-process timeout passed to `exec`, in milliseconds. */
  const TimeoutMs: nat := 60000

  /** The fixed flag passed to gcsim after the config file. */
  const CommandSuffix: string := "\" -substatOptimFull"

  const FailurePrefix: string := "Simulation failed: "

  /** The `type` of every content block this runner returns. */
  const TextType: string := "text"

  // ---------------------------------------------------------------------
  // Data

  datatype Content = Content(contentType: string, text: string)

  /** The `{ content: [...] }` object handed back to the protocol layer. */
  datatype ToolResult = ToolResult(content: seq<Content>)

  /** What `execAsync` did: resolved with both streams, or rejected with an
      error whose message is known and whose `stderr` may be missing.
      Non-zero exit, the 60 s timeout and spawn errors are all rejections. */
  datatype ExecOutcome =
    | ExecSucceeded(stdout: string, stderr: string)
    | ExecFailed(message: string, capturedStderr: Option<string>)

  /** Outcome of one filesystem call. */
  datatype IoStatus = IoOk | IoError(message: string)

  /** The outcomes the outside world chooses for one invocation. */
  datatype Environment = Environment(mkdir: IoStatus, write: IoStatus, exec: ExecOutcome, remove: IoStatus)

  /** The part of the filesystem the runner touches: existing directories and
      file contents, by path. */
  datatype FileSystem = FileSystem(dirs: set<string>, files: map<string, string>)

  datatype Effect =
    | MakeDir(path: string)
    | WriteFile(path: string, contents: string)
    | RunCommand(command: string, timeoutMs: nat)
    | RemoveTree(path: string)

  /** One attempted action, whether it succeeded, and the filesystem after it. */
  datatype Step = Step(effect: Effect, ok: bool, after: FileSystem)

  /** How the call ended: a returned result, or an exception that escaped. */
  datatype Completion = Returned(result: ToolResult) | Threw(message: string)

  datatype Run = Run(steps: seq<Step>, completion: Completion)

  // ---------------------------------------------------------------------
  // Paths and the filesystem

  /** `path.join(dir, name)` for a directory without a trailing separator. */
  function Join(dir: string, name: string): (p: string)
    ensures |p| == |dir| + 1 + |name|
    ensures p[..|dir|] == dir && p[|dir|] == '/' && p[|dir| + 1..] == name
  {
    dir + "/" + name
  }

  /** Where the configuration text is written: `config.txt` inside the
      temporary directory. */
  function ConfigPath(tempDir: string): (p: string)
    ensures Under(p, tempDir) && p != tempDir
    ensures p[|tempDir| + 1..] == ConfigFileName
  {
    Join(tempDir, ConfigFileName)
  }

  /** `p` is `d` itself or lies somewhere below it. */
  predicate Under(p: string, d: string)
  {
    p == d || (|p| > |d| && p[..|d| + 1] == d + "/")
  }

  /** The config file lives inside the temporary directory, so removing the
      directory removes it. */
  lemma ConfigPathUnderTempDir(tempDir: string)
    ensures Under(ConfigPath(tempDir), tempDir)
    ensures ConfigPath(tempDir) != tempDir
  {
  }

  /** `mkdir(d, { recursive: true })`; the ancestors of `d` are not tracked. */
  function MakeDirIn(fs: FileSystem, d: string): (r: FileSystem)
    ensures r.files == fs.files && r.dirs == fs.dirs + {d}
  {
    fs.(dirs := fs.dirs + {d})
  }

  /** `rm(d, { recursive: true, force: true })` that succeeded: `d` and
      everything below it are gone and nothing else changed. */
  function RemoveTreeIn(fs: FileSystem, d: string): (r: FileSystem)
    ensures forall p :: p in r.dirs <==> p in fs.dirs && !Under(p, d)
    ensures forall p :: p in r.files <==> p in fs.files && !Under(p, d)
    ensures forall p :: p in r.files ==> r.files[p] == fs.files[p]
  {
    FileSystem(set p | p in fs.dirs && !Under(p, d), map p | p in fs.files && !Under(p, d) :: fs.files[p])
  }

  // ---------------------------------------------------------------------
  // Command and result text

  /** The shell command: both paths wrapped in double quotes, with no
      escaping of quotes they contain. */
  function BuildCommand(gcsimPath: string, configPath: string): (cmd: string)
    ensures |cmd| == |gcsimPath| + |configPath| + 7 + |CommandSuffix|
    ensures cmd[0] == '"' && cmd[1..1 + |gcsimPath|] == gcsimPath
    ensures cmd[1 + |gcsimPath|..7 + |gcsimPath|] == "\" -c \""
    ensures cmd[|cmd| - |CommandSuffix| - |configPath|..|cmd| - |CommandSuffix|] == configPath
    ensures cmd[|cmd| - |CommandSuffix|..] == CommandSuffix
  {
    "\"" + gcsimPath + "\" -c \"" + configPath + CommandSuffix
  }

  /** Index of the first occurrence of `c` in `s`, or `|s|` when there is none. */
  function IndexOf(s: string, c: char): (i: nat)
    ensures i <= |s|
    decreases |s|
  {
    if |s| == 0 || s[0] == c then 0 else 1 + IndexOf(s[1..], c)
  }

  lemma {:induction false} IndexOfSeparator(a: string, b: string, sep: char)
    requires sep !in a
    ensures IndexOf(a + [sep] + b, sep) == |a|
    decreases |a|
  {
    var s := a + [sep] + b;
    if |a| > 0 {
      assert s[0] == a[0];
      assert s[1..] == a[1..] + [sep] + b;
      IndexOfSeparator(a[1..], b, sep);
    } else {
      assert s[0] == sep;
    }
  }

  /** A separator absent from both heads splits equal strings identically. */
  lemma SplitAtSeparator(a1: string, b1: string, a2: string, b2: string, sep: char)
    requires sep !in a1 && sep !in a2
    requires a1 + [sep] + b1 == a2 + [sep] + b2
    ensures a1 == a2 && b1 == b2
  {
    var s := a1 + [sep] + b1;
    IndexOfSeparator(a1, b1, sep);
    IndexOfSeparator(a2, b2, sep);
    assert a1 == s[..|a1|] == a2;
    assert b1 == s[|a1| + 1..] == b2;
  }

  /** When the executable path holds no double quote, the command determines
      both paths. */
  lemma CommandDeterminesPaths(g1: string, c1: string, g2: string, c2: string)
    requires '"' !in g1 && '"' !in g2
    requires BuildCommand(g1, c1) == BuildCommand(g2, c2)
    ensures g1 == g2 && c1 == c2
  {
    CommandAfterQuote(g1, c1);
    CommandAfterQuote(g2, c2);
    SplitAtSeparator(g1, " -c \"" + c1 + CommandSuffix, g2, " -c \"" + c2 + CommandSuffix, '"');
    MiddleDetermined(" -c \"", c1, c2, CommandSuffix);
  }

  /** After the opening quote the command is the executable path, a closing
      quote, and the rest of the arguments. */
  lemma CommandAfterQuote(g: string, c: string)
    ensures BuildCommand(g, c)[1..] == g + ['"'] + (" -c \"" + c + CommandSuffix)
  {
  }

  /** Equal strings with the same head and tail have the same middle. */
  lemma MiddleDetermined(head: string, x: string, y: string, tail: string)
    requires head + x + tail == head + y + tail
    ensures x == y
  {
    var s := head + x + tail;
    assert |x| == |y|;
    assert x == s[|head|..|head| + |x|];
    assert y == (head + y + tail)[|head|..|head| + |y|];
  }

  /** Without escaping, a quote in the executable path can move text between
      the two quoted arguments: these two different pairs of paths give the
      same command. */
  lemma QuotedPathMakesCommandAmbiguous()
    ensures BuildCommand("a\" -c \"b", "c") == BuildCommand("a", "b\" -c \"c")
  {
  }

  /** `Simulation failed: <message>\n<stderr>`, with a missing stderr read as
      the empty string. */
  function FailureText(message: string, stderr: Option<string>): (text: string)
    ensures |text| >= |FailurePrefix| + |message| + 1
    ensures text[..|FailurePrefix|] == FailurePrefix
    ensures text[|FailurePrefix|..|FailurePrefix| + |message|] == message
    ensures text[|FailurePrefix| + |message|] == '\n'
    ensures stderr.None? ==> |text| == |FailurePrefix| + |message| + 1
    ensures stderr.Some? ==> text[|FailurePrefix| + |message| + 1..] == stderr.value
  {
    FailurePrefix + message + "\n" + match stderr case None => "" case Some(e) => e
  }

  /** For a single-line message, the failure text determines both the
      message and the captured stderr text. The message of a `getConfig`
      error is single-line; a rejection from Node's `exec` usually is not,
      since it is `Command failed: <command>` followed by a newline and the
      stderr output, so for those the text alone does not separate the two. */
  lemma FailureTextDeterminesParts(m1: string, e1: string, m2: string, e2: string)
    requires '\n' !in m1 && '\n' !in m2
    requires FailureText(m1, Some(e1)) == FailureText(m2, Some(e2))
    ensures m1 == m2 && e1 == e2
  {
  }

  /** A result made of a single text block. */
  function TextResult(text: string): (r: ToolResult)
    ensures |r.content| == 1 && r.content[0].contentType == TextType && r.content[0].text == text
  {
    ToolResult([Content(TextType, text)])
  }

  /** The value the `try`/`catch` produces: stdout on success, whatever was
      on stderr notwithstanding; the failure text for a `getConfig` error or
      an `exec` rejection. */
  function TryResult(config: Result<ServerConfig>, exec: ExecOutcome): (r: ToolResult)
    ensures |r.content| == 1 && r.content[0].contentType == TextType
    ensures config.Ok? && exec.ExecSucceeded? ==> r.content[0].text == exec.stdout
    ensures config.Ok? && exec.ExecFailed? ==> r.content[0].text == FailureText(exec.message, exec.capturedStderr)
    ensures config.Err? ==> r.content[0].text == FailureText(config.message, None)
  {
    match config
    case Err(m) => TextResult(FailureText(m, None))
    case Ok(_) =>
      match exec
      case ExecSucceeded(out, _) => TextResult(out)
      case ExecFailed(m, e) => TextResult(FailureText(m, e))
  }

  // ---------------------------------------------------------------------
  // The runner

  /** The filesystem after a run that started from `fs`. */
  function FinalFs(fs: FileSystem, run: Run): FileSystem
  {
    if |run.steps| == 0 then fs else run.steps[|run.steps| - 1].after
  }

  /** `executeGcsimCommand(configText)` with the holder `h` standing for the
      global config and `tempDir` for the fresh directory name.

      mkdir and writeFile run before the `try`: their failures escape as
      exceptions and nothing is cleaned up. Once inside the `try`, the
      config is looked up, the command run, and on every path the directory
      removal is attempted, its failure swallowed. */
  function ExecuteGcsimCommand(h: Holder, configText: string, tempDir: string, fs: FileSystem, env: Environment): (run: Run)
    ensures |run.steps| >= 1 && run.steps[0].effect == MakeDir(tempDir)
    ensures env.mkdir.IoError? ==>
      run.completion == Threw(env.mkdir.message) && |run.steps| == 1 && FinalFs(fs, run) == fs
    ensures env.mkdir.IoOk? ==>
      |run.steps| >= 2 && run.steps[1].effect == WriteFile(ConfigPath(tempDir), configText)
    ensures env.mkdir.IoOk? ==> run.steps[0].after == MakeDirIn(fs, tempDir)
    ensures env.mkdir.IoOk? && env.write.IoOk? ==>
      ConfigPath(tempDir) in run.steps[1].after.files && run.steps[1].after.files[ConfigPath(tempDir)] == configText
    ensures env.mkdir.IoOk? && env.write.IoOk? ==>
      run.steps[1].after == MakeDirIn(fs, tempDir).(files := fs.files[ConfigPath(tempDir) := configText])
    ensures env.mkdir.IoOk? && env.write.IoOk? && env.remove.IoError? ==>
      FinalFs(fs, run) == run.steps[1].after
    ensures env.mkdir.IoOk? && env.write.IoError? ==>
      run.completion == Threw(env.write.message) && |run.steps| == 2
    ensures env.mkdir.IoOk? && env.write.IoError? ==> FinalFs(fs, run) == MakeDirIn(fs, tempDir)
    ensures env.mkdir.IoOk? && env.write.IoOk? ==>
      && run.completion == Returned(TryResult(GetConfig(h), env.exec))
      && run.steps[|run.steps| - 1].effect == RemoveTree(tempDir)
  {
    var made := if env.mkdir.IoOk? then MakeDirIn(fs, tempDir) else fs;
    var mkdirStep := Step(MakeDir(tempDir), env.mkdir.IoOk?, made);
    if env.mkdir.IoError? then
      Run([mkdirStep], Threw(env.mkdir.message))
    else
      var configPath := ConfigPath(tempDir);
      var written := if env.write.IoOk? then made.(files := made.files[configPath := configText]) else made;
      var writeStep := Step(WriteFile(configPath, configText), env.write.IoOk?, written);
      if env.write.IoError? then
        Run([mkdirStep, writeStep], Threw(env.write.message))
      else
        var config := GetConfig(h);
        var execSteps :=
          if config.Ok? then
            [Step(RunCommand(BuildCommand(config.value.gcsimPath, configPath), TimeoutMs), env.exec.ExecSucceeded?, written)]
          else [];
        var removed := if env.remove.IoOk? then RemoveTreeIn(written, tempDir) else written;
        var removeStep := Step(RemoveTree(tempDir), env.remove.IoOk?, removed);
        Run([mkdirStep, writeStep] + execSteps + [removeStep], Returned(TryResult(config, env.exec)))
  }

  /** A step of the run removes a directory. */
  predicate IsRemoval(s: Step)
  {
    s.effect.RemoveTree?
  }

  /** Cleanup is attempted exactly once, as the last action, on every path
      through the `try`; when mkdir or writeFile fails it is never attempted. */
  lemma CleanupAttemptedExactlyWhenTryEntered(h: Holder, configText: string, tempDir: string, fs: FileSystem, env: Environment)
    ensures var run := ExecuteGcsimCommand(h, configText, tempDir, fs, env);
      (exists i :: 0 <= i < |run.steps| && IsRemoval(run.steps[i])) <==> env.mkdir.IoOk? && env.write.IoOk?
    ensures var run := ExecuteGcsimCommand(h, configText, tempDir, fs, env);
      forall i :: 0 <= i < |run.steps| && IsRemoval(run.steps[i]) ==>
        i == |run.steps| - 1 && run.steps[i].effect == RemoveTree(tempDir)
  {
    var run := ExecuteGcsimCommand(h, configText, tempDir, fs, env);
    if env.mkdir.IoOk? && env.write.IoOk? {
      assert IsRemoval(run.steps[|run.steps| - 1]);
    }
  }

  /** The command runs exactly when the `try` is entered with an initialised
      config; it names the configured executable and the file just written,
      carries the 60 s timeout, and the file holds the text verbatim while
      the command runs. */
  lemma CommandRunsWithWrittenFile(h: Holder, configText: string, tempDir: string, fs: FileSystem, env: Environment)
    ensures var run := ExecuteGcsimCommand(h, configText, tempDir, fs, env);
      (exists i :: 0 <= i < |run.steps| && run.steps[i].effect.RunCommand?) <==>
        env.mkdir.IoOk? && env.write.IoOk? && h.Initialised?
    ensures var run := ExecuteGcsimCommand(h, configText, tempDir, fs, env);
      env.mkdir.IoOk? && env.write.IoOk? && h.Initialised? ==>
        && |run.steps| == 4
        && run.steps[2].effect == RunCommand(BuildCommand(h.config.gcsimPath, ConfigPath(tempDir)), 60000)
        && ConfigPath(tempDir) in run.steps[2].after.files
        && run.steps[2].after.files[ConfigPath(tempDir)] == configText
  {
    var run := ExecuteGcsimCommand(h, configText, tempDir, fs, env);
    if env.mkdir.IoOk? && env.write.IoOk? && h.Initialised? {
      assert run.steps[2].effect.RunCommand?;
    }
  }

  /** After a run whose cleanup succeeded, nothing at or below the temporary
      directory is left, and every other path is as it was before the run. */
  lemma TempDirGoneAfterCleanup(h: Holder, configText: string, tempDir: string, fs: FileSystem, env: Environment)
    requires env.mkdir.IoOk? && env.write.IoOk? && env.remove.IoOk?
    ensures var after := FinalFs(fs, ExecuteGcsimCommand(h, configText, tempDir, fs, env));
      && (forall p :: p in after.dirs <==> p in fs.dirs && !Under(p, tempDir))
      && (forall p :: p in after.files <==> p in fs.files && !Under(p, tempDir))
      && (forall p :: p in after.files ==> after.files[p] == fs.files[p])
  {
  }

  /** If the config file of a run in `d2` lies under `d1`, one of the two
      directories contains the other. */
  lemma NestedIfConfigPathUnder(d1: string, d2: string)
    requires Under(ConfigPath(d2), d1)
    ensures Under(d1, d2) || Under(d2, d1)
  {
    var cp := ConfigPath(d2);
    assert cp[..|d2| + 1] == d2 + "/";
    if cp != d1 {
      assert cp[..|d1| + 1] == d1 + "/";
      if |d1| < |d2| {
        assert d2[..|d1| + 1] == cp[..|d1| + 1];
      } else if |d1| == |d2| {
        assert d1 == cp[..|d1|] == d2;
      } else {
        assert d1[..|d2| + 1] == cp[..|d2| + 1];
      }
    }
  }

  /** Cleaning up one run's directory leaves the config file of a run in a
      directory that neither contains nor lies inside it untouched. */
  lemma SiblingRunUntouched(fs: FileSystem, d1: string, d2: string)
    requires !Under(d1, d2) && !Under(d2, d1)
    requires ConfigPath(d2) in fs.files
    ensures ConfigPath(d2) in RemoveTreeIn(fs, d1).files
    ensures RemoveTreeIn(fs, d1).files[ConfigPath(d2)] == fs.files[ConfigPath(d2)]
  {
    if Under(ConfigPath(d2), d1) {
      NestedIfConfigPathUnder(d1, d2);
    }
  }

  /** A failed removal never changes what the call returns. */
  lemma RemovalErrorInvisible(h: Holder, configText: string, tempDir: string, fs: FileSystem, env: Environment, remove: IoStatus)
    ensures ExecuteGcsimCommand(h, configText, tempDir, fs, env).completion ==
            ExecuteGcsimCommand(h, configText, tempDir, fs, env.(remove := remove)).completion
  {
  }

  /** No exception escapes the `try`: once the file is written the call
      returns exactly one text block. */
  lemma NothingEscapesTry(h: Holder, configText: string, tempDir: string, fs: FileSystem, env: Environment)
    requires env.mkdir.IoOk? && env.write.IoOk?
    ensures var c := ExecuteGcsimCommand(h, configText, tempDir, fs, env).completion;
      c.Returned? && |c.result.content| == 1 && c.result.content[0].contentType == TextType
  {
  }

  /** On exec success the single block's text is stdout, whatever stderr
      holds. */
  lemma SuccessReturnsStdout(h: Holder, configText: string, tempDir: string, fs: FileSystem, env: Environment, otherStderr: string)
    requires env.mkdir.IoOk? && env.write.IoOk? && h.Initialised? && env.exec.ExecSucceeded?
    ensures ExecuteGcsimCommand(h, configText, tempDir, fs, env).completion ==
            Returned(ToolResult([Content("text", env.exec.stdout)]))
    ensures ExecuteGcsimCommand(h, configText, tempDir, fs, env).completion ==
            ExecuteGcsimCommand(h, configText, tempDir, fs, env.(exec := env.exec.(stderr := otherStderr))).completion
  {
  }

  /** Before any successful `initConfig`, the call returns the "not
      initialized" message with an empty stderr part. */
  lemma UninitialisedConfigReported(configText: string, tempDir: string, fs: FileSystem, env: Environment)
    requires env.mkdir.IoOk? && env.write.IoOk?
    ensures ExecuteGcsimCommand(Uninitialised, configText, tempDir, fs, env).completion ==
            Returned(ToolResult([Content("text", FailurePrefix + UninitialisedMessage + "\n")]))
  {
    var t := FailurePrefix + UninitialisedMessage + "\n";
    assert t + "" == t;
  }

  /** An exec rejection is reported as `Simulation failed: <message>\n<stderr>`. */
  lemma ExecFailureReported(h: Holder, configText: string, tempDir: string, fs: FileSystem, env: Environment)
    requires env.mkdir.IoOk? && env.write.IoOk? && h.Initialised? && env.exec.ExecFailed?
    ensures var c := ExecuteGcsimCommand(h, configText, tempDir, fs, env).completion;
      && c.Returned? && |c.result.content| == 1
      && c.result.content[0].text ==
         "Simulation failed: " + env.exec.message + "\n" + (if env.exec.capturedStderr.Some? then env.exec.capturedStderr.value else "")
  {
  }
}

=== FILE: results.dfy ===
/** Failure-carrying values shared by the whole model.

    Every error the adapter raises is a JavaScript `Error`, and the only part
    of it any caller looks at is its message, so a failed `Result` carries a
    message string.
 */
module Results {

  /** A value that may be absent (`undefined` / `null` on the JavaScript side). */
  datatype Option<+T> = None | Some(value: T)

  /** Either a value or the message of the `Error` that was thrown instead. */
  datatype Result<+T> = Ok(value: T) | Err(message: string)
}

=== FILE: server.dfy ===
/** The MCP request handlers of the server, as pure dispatch functions.

    The tool listing advertises one tool, `run_gcsim`; the resource and
    prompt listings are empty; a tool call with any other name is rejected
    before the runner is reached, and otherwise the `config` argument is
    coerced with JavaScript's `String(...)` and handed to the runner, whose
    result is the response. The runner is a parameter, so "never invoked"
    is stated as "the response does not depend on it".
 */
module Server {
  import opened Results
  import opened Config
  import opened Gcsim

  const ToolName: string := "run_gcsim"
  const ToolDescription: string := "Run gcsim simulation with provided config"
  const ConfigArgName: string := "config"
  const UnknownToolMessage: string := "Unknown tool"

  // ---------------------------------------------------------------------
  // Listings

  datatype PropertySchema = PropertySchema(propType: string, description: string)

  /** A JSON-schema object: its type, its named properties and which of them
      are required. */
  datatype InputSchema = InputSchema(schemaType: string, properties: map<string, PropertySchema>, required: seq<string>)

  datatype ToolDescriptor = ToolDescriptor(name: string, description: string, inputSchema: InputSchema)

  /** A resource or prompt entry; the server never lists any. */
  datatype NamedEntry = NamedEntry(name: string)

  /** The `tools/list` response: the single `run_gcsim` tool, taking one
      required string property `config`. */
  function ListTools(): (tools: seq<ToolDescriptor>)
    ensures |tools| == 1 && tools[0].name == ToolName
    ensures tools[0].inputSchema.schemaType == "object"
    ensures tools[0].inputSchema.properties.Keys == {ConfigArgName}
    ensures tools[0].inputSchema.properties[ConfigArgName].propType == "string"
    ensures tools[0].inputSchema.required == [ConfigArgName]
  {
    [ToolDescriptor(
      ToolName,
      ToolDescription,
      InputSchema(
        "object",
        map[ConfigArgName := PropertySchema("string", "gcsim config file content")],
        [ConfigArgName]))]
  }

  /** The `resources/list` response. */
  function ListResources(): (resources: seq<NamedEntry>)
    ensures |resources| == 0
  {
    []
  }

  /** The `prompts/list` response. */
  function ListPrompts(): (prompts: seq<NamedEntry>)
    ensures |prompts| == 0
  {
    []
  }

  /** Every property the listed schema requires is one it declares, so a
      client that follows the schema always supplies `config`. */
  lemma ListedSchemaWellFormed()
    ensures forall t :: t in ListTools() ==>
      forall k :: k in t.inputSchema.required ==> k in t.inputSchema.properties
  {
  }

  // ---------------------------------------------------------------------
  // String coercion of the `config` argument

  /** `Number.MAX_SAFE_INTEGER`, 2^53 - 1: every integer up to this
      magnitude is a JavaScript number that `String` prints digit for digit. */
  const MaxSafeInteger: int := 9007199254740991

  type SafeInteger = i: int | -MaxSafeInteger <= i <= MaxSafeInteger

  /** Message of the `TypeError` `String` throws for an object that cannot be
      turned into a primitive. */
  const ObjectConversionMessage: string := "Cannot convert object to primitive value"

  /** The JSON values a tool argument can hold, plus `undefined` for a
      missing one. Numbers are restricted to safe integers; an object is
      known by the names of its own keys. */
  datatype JsValue =
    | Undefined
    | Null
    | Bool(b: bool)
    | Str(s: string)
    | Int(i: SafeInteger)
    | Object(ownKeys: set<string>)

  function DigitChar(d: nat): (c: char)
    requires d < 10
    ensures '0' <= c <= '9'
  {
    ('0' as int + d) as char
  }

  predicate AllDigits(s: string)
  {
    forall i :: 0 <= i < |s| ==> '0' <= s[i] <= '9'
  }

  /** Decimal rendering of a natural number, without leading zeros. */
  function NatToDecimal(n: nat): (s: string)
    ensures |s| > 0 && AllDigits(s)
    ensures |s| > 1 || n > 0 ==> s[0] != '0'
    decreases n
  {
    if n < 10 then [DigitChar(n)] else NatToDecimal(n / 10) + [DigitChar(n % 10)]
  }

  /** The number a string of decimal digits denotes. */
  function DecimalValue(s: string): nat
    requires AllDigits(s)
    decreases |s|
  {
    if |s| == 0 then 0 else 10 * DecimalValue(s[..|s| - 1]) + (s[|s| - 1] as int - '0' as int)
  }

  /** The rendering denotes the number it was made from. */
  lemma {:induction false} DecimalRoundTrip(n: nat)
    ensures DecimalValue(NatToDecimal(n)) == n
    decreases n
  {
    if n >= 10 {
      DecimalRoundTrip(n / 10);
      var s := NatToDecimal(n);
      assert s[..|s| - 1] == NatToDecimal(n / 10);
    }
  }

  /** JavaScript's `String(v)`. A JSON object with an own `toString` key
      has a non-callable `toString` and only the inherited `valueOf`, which
      returns the object itself, so the conversion throws a `TypeError`;
      any other JSON object prints as `[object Object]`. */
  function ToJsString(v: JsValue): (r: Result<string>)
    ensures r.Err? <==> v.Object? && "toString" in v.ownKeys
    ensures r.Err? ==> r.message == ObjectConversionMessage
    ensures v.Str? ==> r == Ok(v.s)
    ensures v.Undefined? ==> r == Ok("undefined")
    ensures v.Null? ==> r == Ok("null")
    ensures v.Bool? ==> r == Ok(if v.b then "true" else "false")
    ensures v.Object? && r.Ok? ==> r.value == "[object Object]"
  {
    match v
    case Undefined => Ok("undefined")
    case Null => Ok("null")
    case Bool(b) => Ok(if b then "true" else "false")
    case Str(s) => Ok(s)
    case Int(i) => Ok(if i < 0 then "-" + NatToDecimal(-i) else NatToDecimal(i))
    case Object(keys) => if "toString" in keys then Err(ObjectConversionMessage) else Ok("[object Object]")
  }

  /** Strings pass through `String(...)` unchanged; a missing argument turns
      into the literal text `undefined`, indistinguishable from a caller who
      sent that text. */
  lemma CoercionOfStringsAndUndefined(s: string)
    ensures ToJsString(Str(s)) == Ok(s)
    ensures ToJsString(Undefined) == Ok("undefined") == ToJsString(Str("undefined"))
  {
  }

  /** An integer argument is rendered in decimal, with a minus sign
      exactly when it is negative. */
  lemma IntCoercionDecimal(i: SafeInteger)
    ensures ToJsString(Int(i)).Ok?
    ensures var t := ToJsString(Int(i)).value;
      && |t| > 0
      && (i < 0 <==> t[0] == '-')
      && (i >= 0 ==> AllDigits(t) && DecimalValue(t) == i)
      && (i < 0 ==> AllDigits(t[1..]) && DecimalValue(t[1..]) == -i)
  {
    if i < 0 {
      var t := ToJsString(Int(i)).value;
      DecimalRoundTrip(-i);
      assert t[1..] == NatToDecimal(-i);
    } else {
      DecimalRoundTrip(i);
    }
  }

  /** Different integers are coerced to different texts. */
  lemma IntCoercionInjective(i: SafeInteger, j: SafeInteger)
    requires ToJsString(Int(i)) == ToJsString(Int(j))
    ensures i == j
  {
    IntCoercionDecimal(i);
    IntCoercionDecimal(j);
  }

  /** `request.params.arguments?.config`: `undefined` when there are no
      arguments or no `config` among them. */
  function ConfigArgument(arguments: Option<map<string, JsValue>>): (v: JsValue)
    ensures arguments.Some? && ConfigArgName in arguments.value ==> v == arguments.value[ConfigArgName]
    ensures arguments.None? || ConfigArgName !in arguments.value ==> v == Undefined
  {
    match arguments
    case None => Undefined
    case Some(m) => if ConfigArgName in m then m[ConfigArgName] else Undefined
  }

  // ---------------------------------------------------------------------
  // Tool calls

  /** Where a tool call goes: rejected, or forwarded with the config text. */
  datatype Route = Rejected(message: string) | Forwarded(configText: string)

  /** The name check and argument coercion of the `tools/call` handler: the
      name is checked first, then `String(...)` runs and may throw. */
  function RouteCall(name: string, arguments: Option<map<string, JsValue>>): (r: Route)
    ensures name != ToolName ==> r == Rejected(UnknownToolMessage)
    ensures name == ToolName ==>
      (r.Rejected? <==> ConfigArgument(arguments).Object? && "toString" in ConfigArgument(arguments).ownKeys)
    ensures name == ToolName && r.Rejected? ==> r.message == ObjectConversionMessage
    ensures name == ToolName && ToJsString(ConfigArgument(arguments)).Ok? ==>
      r == Forwarded(ToJsString(ConfigArgument(arguments)).value)
    ensures r.Forwarded? && arguments.Some? && ConfigArgName in arguments.value && arguments.value[ConfigArgName].Str? ==>
      r.configText == arguments.value[ConfigArgName].s
    ensures name == ToolName && (arguments.None? || ConfigArgName !in arguments.value) ==>
      r == Forwarded("undefined")
  {
    if name != ToolName then Rejected(UnknownToolMessage)
    else
      match ToJsString(ConfigArgument(arguments))
      case Ok(text) => Forwarded(text)
      case Err(m) => Rejected(m)
  }

  /** The `tools/call` handler with the runner as a parameter: a rejected
      call is a protocol error; otherwise the runner's completion is the
      response, a returned result unchanged and an escaped exception as a
      protocol error carrying its message. */
  function CallTool(name: string, arguments: Option<map<string, JsValue>>, runner: string -> Completion): (r: Result<ToolResult>)
    ensures name != ToolName ==> r == Err(UnknownToolMessage)
    ensures RouteCall(name, arguments).Rejected? ==> r == Err(RouteCall(name, arguments).message)
    ensures RouteCall(name, arguments).Forwarded? && runner(RouteCall(name, arguments).configText).Returned? ==>
      r == Ok(runner(RouteCall(name, arguments).configText).result)
    ensures RouteCall(name, arguments).Forwarded? && runner(RouteCall(name, arguments).configText).Threw? ==>
      r == Err(runner(RouteCall(name, arguments).configText).message)
  {
    match RouteCall(name, arguments)
    case Rejected(m) => Err(m)
    case Forwarded(text) =>
      match runner(text)
      case Returned(result) => Ok(result)
      case Threw(m) => Err(m)
  }

  /** An unknown tool name never reaches the runner: the response is the
      same whatever the runner would do. */
  lemma UnknownToolNeverRunsRunner(name: string, arguments: Option<map<string, JsValue>>, r1: string -> Completion, r2: string -> Completion)
    requires name != ToolName
    ensures CallTool(name, arguments, r1) == CallTool(name, arguments, r2) == Err(UnknownToolMessage)
  {
  }

  /** A `config` object whose `String(...)` throws stops the call before the
      runner: the response is the `TypeError` whatever the runner would do. */
  lemma UnconvertibleConfigNeverRunsRunner(keys: set<string>, arguments: map<string, JsValue>, r1: string -> Completion, r2: string -> Completion)
    requires "toString" in keys && ConfigArgName in arguments && arguments[ConfigArgName] == Object(keys)
    ensures CallTool(ToolName, Some(arguments), r1) == CallTool(ToolName, Some(arguments), r2) == Err(ObjectConversionMessage)
  {
  }

  /** A call is accepted exactly when it names a listed tool. */
  lemma CallableExactlyListed(name: string, arguments: Option<map<string, JsValue>>)
    ensures RouteCall(name, arguments) != Rejected(UnknownToolMessage) <==> exists t :: t in ListTools() && t.name == name
  {
    assert ListTools()[0] in ListTools();
  }

  /** The runner the server wires in: `executeGcsimCommand` under the
      holder `h`, with the directory name and I/O outcomes fixed. */
  function GcsimRunner(h: Holder, tempDir: string, fs: FileSystem, env: Environment): string -> Completion
  {
    text => ExecuteGcsimCommand(h, text, tempDir, fs, env).completion
  }

  /** End to end, after `initConfig(argv)` succeeded: a `run_gcsim` call runs
      the parsed executable on a file holding the coerced config text, and
      responds with what the `try` block produced. */
  lemma CallRunsParsedExecutable(argv: seq<string>, arguments: Option<map<string, JsValue>>, tempDir: string, fs: FileSystem, env: Environment)
    requires ParseArgs(argv).Ok? && env.mkdir.IoOk? && env.write.IoOk?
    requires ToJsString(ConfigArgument(arguments)).Ok?
    ensures var h := InitConfig(Uninitialised, argv).holder;
      var text := ToJsString(ConfigArgument(arguments)).value;
      var run := ExecuteGcsimCommand(h, text, tempDir, fs, env);
      && RouteCall(ToolName, arguments) == Forwarded(text)
      && run.steps[1].effect == WriteFile(ConfigPath(tempDir), text)
      && run.steps[2].effect == RunCommand(BuildCommand(ParseArgs(argv).value.gcsimPath, ConfigPath(tempDir)), TimeoutMs)
      && CallTool(ToolName, arguments, GcsimRunner(h, tempDir, fs, env)) == Ok(TryResult(ParseArgs(argv), env.exec))
  {
  }

  /** A call without a `config` argument, whether `arguments` is absent or
      lacks the key, writes the text `undefined` to the config file. */
  lemma MissingConfigWritesUndefined(h: Holder, arguments: Option<map<string, JsValue>>, tempDir: string, fs: FileSystem, env: Environment)
    requires arguments.None? || ConfigArgName !in arguments.value
    requires env.mkdir.IoOk?
    ensures RouteCall(ToolName, arguments).Forwarded?
    ensures var run := ExecuteGcsimCommand(h, RouteCall(ToolName, arguments).configText, tempDir, fs, env);
      run.steps[1].effect == WriteFile(ConfigPath(tempDir), "undefined")
  {
  }
}
